=== FILE: README.md ===
# Session-recording ingestion and player positions, modelled in Dafny

This project models three pieces of logic from PostHog's analytics server.

- **`TeamManager`** (`team_manager.dfy`) is the team resolution cache of the plugin server. It models `TeamManager.fetchTeam` and `TeamManager.getTeamByToken`. There are two maps. The team map holds team id -> team-or-null. The token map holds API token -> team-id-or-null. A cached `null` is a negative entry, which is different from "not cached". The cache is a state value: both maps plus a count of store queries. It is threaded through the resolution functions. The Postgres store is a pair of abstract lookup functions that may fail. Every entry records the time it was inserted. A read treats an entry older than the map's lifetime as missing and never renews the entry. Capacity eviction and expiry are a `Forgets` step, which may only remove entries.
- **`SessionRecordingsConsumer`** (`session_recordings_consumer.dfy`) covers `eachMessage` and `eachBatch` of the session-recordings Kafka consumer. Each message either lets an error escape or gets exactly one `Disposition`. Two errors can escape: a store failure during the team lookup, and the `TypeError` raised for an opted-in team when the inner `data` is the JSON text `null` (see "## Findings"). The dispositions are:
  - dead-lettered, with the original value and key;
  - dropped, with cause `no_token`, `invalid_token`, `disabled` or `invalid_event_type`;
  - one record emitted to the ClickHouse session-recording topic or to the performance-events topic;
  - a swallowed processing error.

  A batch handles its messages in order and threads the team cache through them. It concatenates their produce requests and ignores the flush result. It commits only when no produce request was rejected with a retriable error. JSON decoding and the record builders are abstract functions, collected in a `Codec`.
- **`PlayerUtils`** (`player_utils.dfy`) covers the position arithmetic of the recording player. It maps between per-window player positions, the player timeline (the segments laid end to end by duration) and epoch time, including the clamping into a window's range. Times are integer milliseconds.

`wrappers.dfy` holds the shared `Option` and `Result` types.

Some behaviour of the code is easy to misread; the model follows the code:
- A message whose value is an *empty* buffer is not caught by the `!message.value` test, because a Buffer object is truthy. It reaches `JSON.parse`, fails there, and is dead-lettered with reason `invalid_json` rather than `empty`. The produce request is the same.
- A message whose timestamp is `0` counts as missing, because `0` is falsy. It is dead-lettered.
- A string key that is empty is falsy, so the dead-letter and output records carry a `null` key for it.
- A cached token id of `0` is falsy. Such a lookup always falls through to the store, although the result of that query is cached again.

## Model

| member | source | states |
|---|---|---|
| `TeamManager.NewCache` | plugin-server/src/worker/ingestion/team-manager.ts:19-34 | A new manager has both maps empty (every read misses) and has issued no query. |
| `TeamManager.FetchTeam` | plugin-server/src/worker/ingestion/team-manager.ts:36-50 | Any live team entry, a cached `null` included, is returned with no query and no state change. On a miss, exactly one query is issued and its answer is returned. A successful answer, "not found" included, is inserted under the id with the time of the call as its insertion time, so its 2-minute lifetime starts then. A store failure leaves the team map untouched. No other team entry changes, and the token map never changes. The call adds at most one team entry. |
| `TeamManager.ChainedTeam` | plugin-server/src/worker/ingestion/team-manager.ts:73-80 | The positive chain succeeds exactly when the token's cached id is present and non-zero and that id's team entry holds a team (not `null`, not missing). It then yields that team. |
| `TeamManager.GetTeamByToken` | plugin-server/src/worker/ingestion/team-manager.ts:52-98 | A cached negative token answers `null` with no query and no change. A positive chain answers its team with no query and no change. Otherwise exactly one store query is made and its answer returned. "Not found" inserts the token as `null` at the time of the call and leaves the team map unchanged. A found team inserts, at the time of the call, both token -> team.id and team.id -> team. A failure caches nothing. Other token entries never change, and no team entry other than the answered team's changes. The call adds at most one entry to each map. |
| `TeamManager.Expire` | plugin-server/src/worker/ingestion/team-manager.ts:23-32 | Dropping the entries older than 2 minutes (teams) or 5 minutes (tokens) only removes entries, leaves only live ones, and does not change any read at that time. |
| `TeamManager.ForgettingOnlyCausesMisses` | plugin-server/src/worker/ingestion/team-manager.ts:36-50 | After any eviction or expiry, `fetchTeam` returns what it returned before without a query, or it asks the store. Forgetting never turns one cached answer into another. |
| `TeamManager.EvictionKeepsFetchedTeam` | plugin-server/src/worker/ingestion/team-manager.ts:23-27 | From a cache within both capacities, `fetchTeam` grows the team map by at most one entry. Removing at most one other entry brings it back within 10,000 while keeping the entry just read, and the token map is untouched. |
| `TeamManager.EvictionKeepsResolvedToken` | plugin-server/src/worker/ingestion/team-manager.ts:23-32 | From a cache within both capacities, `getTeamByToken` grows each map by at most one entry. Removing at most one other entry per map restores the 10,000 and 1,000,000 bounds while keeping the token's entry and the entry of the team it resolved to. |
| `TeamManager.ResolutionKeepsTeamsWellKeyed` | plugin-server/src/worker/ingestion/team-manager.ts:44-45 | If the store returns the row for the id it was asked, every cached team sits under its own id. `fetchTeam`, `getTeamByToken` and forgetting all keep this true. |
| `TeamManager.TokenResolutionWarmsTeamCache` | plugin-server/src/worker/ingestion/team-manager.ts:92-94 | For a well-keyed cache (which `ResolutionKeepsTeamsWellKeyed` shows resolution preserves), once a token resolves to a team, `fetchTeam(team.id)` answers that team with no query. When the team came from the store, this holds for the whole 2-minute team lifetime. |
| `TeamManager.InvalidTokenQueriedAtMostOnce` | plugin-server/src/worker/ingestion/team-manager.ts:63-71 | Two resolutions of a token where the first answered `null` issue at most one store query between them, when the second comes within 5 minutes. |
| `TeamManager.ResolvedTokenTrustedForTeamLifetime` | plugin-server/src/worker/ingestion/team-manager.ts:73-94 | After the store resolved a token to a team with a non-zero id, a later resolution within 2 minutes returns the same team from the cache, with no query, whatever the store now says (a revoked token is still accepted). More than 2 minutes after the lookup, the store is asked again and its answer returned. |
| `TeamManager.InvalidTokenRetriedAfterLifetime` | plugin-server/src/worker/ingestion/team-manager.ts:63-90 | A token the store did not know is answered `null` from the cache for at most 5 minutes. A resolution more than 5 minutes after the failed lookup queries the store again and returns its new answer. |
| `TeamManager.FalsyChainQueriesStore` | plugin-server/src/worker/ingestion/team-manager.ts:75-85 | A cached token id of `0`, or a team entry that is `null` or missing, does not short-circuit. The store is queried by token and its answer returned. |
| `TeamManager.TeamEntryExpiresFromInsertion` | plugin-server/src/worker/ingestion/team-manager.ts:23-27 | Any number of reads within an entry's lifetime leave the cache unchanged (no renewal on read). The first `fetchTeam` after 2 minutes from insertion queries the store again. |
| `SessionRecordingsConsumer.Requests` | plugin-server/src/main/ingestion-queues/session-recordings-consumer.ts:111-114 | A disposition hands back at most one produce request. It hands back exactly one for a dead letter (to the DLQ topic, with the original value) and for an emitted record. The request always carries the disposition's key. |
| `SessionRecordingsConsumer.ForwardedKey` | plugin-server/src/main/ingestion-queues/session-recordings-consumer.ts:171 | The key is forwarded unchanged unless it is missing or the empty string, in which case it is `null`. |
| `SessionRecordingsConsumer.Decode` | plugin-server/src/main/ingestion-queues/session-recordings-consumer.ts:179-186 | Decoding succeeds exactly when the outer payload decodes and its `data` decodes, and it then returns exactly that envelope and that inner value (which may be JSON `null`). |
| `SessionRecordingsConsumer.ResolveTeam` | plugin-server/src/main/ingestion-queues/session-recordings-consumer.ts:220-226 | A non-null `team_id` (even `0`) is looked up with `fetchTeam` and never touches the token map. Otherwise a truthy token is looked up with `getTeamByToken`. With neither, nothing is looked up and the cache is unchanged. At most one store query is made. |
| `SessionRecordingsConsumer.HandleEvent` | plugin-server/src/main/ingestion-queues/session-recordings-consumer.ts:243-306 | An event object gets the opt-in gate and dispatch of `Transform`. An opted-out team gets a `disabled` drop, even for a `null` event. An error escapes exactly when the event is `null` and the team has opted in. |
| `SessionRecordingsConsumer.Transform` | plugin-server/src/main/ingestion-queues/session-recordings-consumer.ts:243-306 | A team that has not opted in gives a `disabled` drop for every event name. For an opted-in team: `$snapshot` gives one record on the ClickHouse session-recording topic, and `$performance_event` gives one on the performance topic, both with the message key. A builder failure is swallowed with no record. Any other name gives an `invalid_event_type` drop. |
| `SessionRecordingsConsumer.EachMessage` | plugin-server/src/main/ingestion-queues/session-recordings-consumer.ts:150-307 | A message with no value or a falsy timestamp, or one that does not decode, is dead-lettered with its original value and key and no team lookup. These are the only dead letters. Every produce request carries the message's key. A `no_token` drop leaves the cache untouched. A store failure propagates and caches nothing. The other escaping error only arises from a `null` inner event. At most one store query is issued per message. |
| `SessionRecordingsConsumer.EmptyMessageIsDeadLettered` | plugin-server/src/main/ingestion-queues/session-recordings-consumer.ts:160-174 | A message with no value or a falsy timestamp gives exactly one produce request, to the DLQ topic, with the original value and key. It does no team lookup. |
| `SessionRecordingsConsumer.NoCredentialDropsWithoutLookup` | plugin-server/src/main/ingestion-queues/session-recordings-consumer.ts:205-218 | A decoded envelope with a null `team_id` and an absent or empty token is dropped as `no_token`, with no produce and no team lookup. |
| `SessionRecordingsConsumer.TeamIdTakesPrecedence` | plugin-server/src/main/ingestion-queues/session-recordings-consumer.ts:220-226 | With a non-null `team_id` (even `0`), the lookup does not depend on the token and leaves the token map alone. |
| `SessionRecordingsConsumer.ResolvedMessageDisposition` | plugin-server/src/main/ingestion-queues/session-recordings-consumer.ts:220-242 | For a decoded message with a credential, a team that is not found gives an `invalid_token` drop. A found team gives the opt-in gate and dispatch of `HandleEvent`, using the message's forwarded key. A store failure propagates. The cache is whatever the lookup left. |
| `SessionRecordingsConsumer.OptedOutTeamProducesNothing` | plugin-server/src/main/ingestion-queues/session-recordings-consumer.ts:299-306 | A resolved team that has not opted in yields a `disabled` drop and no produce request, whatever the event name, and also for a `null` event. |
| `SessionRecordingsConsumer.ProcessMessages` | plugin-server/src/main/ingestion-queues/session-recordings-consumer.ts:107-115 | A batch issues at most one produce request per message and at most one store query per message. |
| `SessionRecordingsConsumer.ProcessMessagesAppend` | plugin-server/src/main/ingestion-queues/session-recordings-consumer.ts:110-115 | Processing `xs + ys` means processing `xs`, then `ys` from the cache `xs` left. The produce requests are concatenated in that order. A failure in `xs` stops the batch before `ys`. |
| `SessionRecordingsConsumer.BatchOutcome` | plugin-server/src/main/ingestion-queues/session-recordings-consumer.ts:107-147 | The outcome keeps the cache the messages left. A commit carries exactly the in-order produce requests. An abort names either the error that stopped the messages, or the index of the first produce request rejected with a retriable error, all earlier ones not being retriable. |
| `SessionRecordingsConsumer.FirstRetriable` | plugin-server/src/main/ingestion-queues/session-recordings-consumer.ts:133-147 | Finds the first acknowledgement that is a retriable rejection, or reports that none is. |
| `SessionRecordingsConsumer.CommitIffNoRetriableRejection` | plugin-server/src/main/ingestion-queues/session-recordings-consumer.ts:133-147 | A batch commits exactly when every message was handled and none of its produce requests was rejected with a retriable error. Non-retriable rejections are skipped. |
| `SessionRecordingsConsumer.ProcessMessagesStep` | plugin-server/src/main/ingestion-queues/session-recordings-consumer.ts:110-115 | Adding one message to an unfailed prefix appends that message's produce requests and moves to the cache it left. A store failure stops the run there. |
| `SessionRecordingsConsumer.ProcessMessagesStopped` | plugin-server/src/main/ingestion-queues/session-recordings-consumer.ts:110-111 | Once a prefix of the batch has failed, the messages after it are not handled. |
| `SessionRecordingsConsumer.ProcessBatch` | plugin-server/src/main/ingestion-queues/session-recordings-consumer.ts:107-115 | The message loop computes exactly the in-order fold: the concatenated produce requests, the failure that stopped it, and the cache left behind. |
| `SessionRecordingsConsumer.AwaitProduceRequests` | plugin-server/src/main/ingestion-queues/session-recordings-consumer.ts:133-147 | The await loop rethrows exactly at the first retriable rejection among the batch's produce requests, and completes when there is none. |
| `SessionRecordingsConsumer.EachBatch` | plugin-server/src/main/ingestion-queues/session-recordings-consumer.ts:86-148 | The batch aborts on a message failure, and otherwise on the first retriable produce rejection. Otherwise it commits the in-order produce requests. The flush result has no influence on the outcome. |
| `SessionRecordingsConsumer.SnapshotByTokenCommits` | plugin-server/src/main/ingestion-queues/session-recordings-consumer.ts:222-262 | A `$snapshot` event whose token `tok_abc` resolves through the store to opted-in team 7 gives exactly one ClickHouse session-recording record with the message key. The batch commits once that request is delivered. Team 7 is then cached after one query. |
| `SessionRecordingsConsumer.UnsupportedEventStillCommits` | plugin-server/src/main/ingestion-queues/session-recordings-consumer.ts:279-292 | An opted-in team's event with any name other than `$snapshot` or `$performance_event` gives an `invalid_event_type` drop and no record. The one-message batch still commits. |
| `SessionRecordingsConsumer.NullEventAbortsBatch` | plugin-server/src/main/ingestion-queues/session-recordings-consumer.ts:243-298 | For an opted-in team whose message has the inner `data` `null`, `event.event` throws and the `catch` throws again reading `event.uuid`. The batch that starts with this message aborts with that error, whatever follows it. |
| `SessionRecordingsConsumer.GuardedHandleEvent` | plugin-server/src/main/ingestion-queues/session-recordings-consumer.ts:293-297 | The intended handling: wherever `HandleEvent` gives a disposition it gives the same one, and where `HandleEvent` lets the `null`-event error escape it gives a swallowed processing error. It never emits a record for a `null` event. |
| `PlayerUtils.StartOffsetMonotone` | frontend/src/scenes/session-recordings/player/playerUtils.ts:86-97 | When no duration is negative, segment start offsets on the player timeline never decrease along the list. |
| `PlayerUtils.FindContaining` | frontend/src/scenes/session-recordings/player/playerUtils.ts:70-79 | Finds the first segment at or after `k` whose window matches and whose closed time range contains the position, or reports that none does. |
| `PlayerUtils.CompareFrom` | frontend/src/scenes/session-recordings/player/playerUtils.ts:48-63 | Scanning from segment `k`: `-1` when `a` is found no later than `b`, `1` when `b` is found strictly first, and the "could not find" failure when neither is found. |
| `PlayerUtils.ComparePlayerPositions` | frontend/src/scenes/session-recordings/player/playerUtils.ts:44-64 | In the same window the result is `a.time - b.time`. Across windows it is `-1` when `a`'s first containing segment comes earlier and `1` when `b`'s does. It fails exactly when neither position is in any segment. |
| `PlayerUtils.CompareAntisymmetric` | frontend/src/scenes/session-recordings/player/playerUtils.ts:44-64 | A position compares equal (0) to itself. Swapping the arguments negates a result and keeps a failure a failure. |
| `PlayerUtils.SegmentFrom` | frontend/src/scenes/session-recordings/player/playerUtils.ts:70-79 | The scan returns the segment at the first containing index from `k`, or `None`. |
| `PlayerUtils.SegmentFromPlayerPosition` | frontend/src/scenes/session-recordings/player/playerUtils.ts:66-80 | Returns a segment containing the position with no earlier segment containing it. Returns `None` exactly when no segment contains it. |
| `PlayerUtils.PlayerTimeFrom` | frontend/src/scenes/session-recordings/player/playerUtils.ts:86-98 | The accumulating scan adds the durations between `k` and the first containing segment to `elapsed`, then adds the position's offset into that segment. |
| `PlayerUtils.PlayerTimeFromPlayerPosition` | frontend/src/scenes/session-recordings/player/playerUtils.ts:82-99 | The player time is the summed durations of the segments before the first containing one, plus `time - start.time`. It is `None` exactly when `getSegmentFromPlayerPosition` is `None`. |
| `PlayerUtils.FindEndingAfter` | frontend/src/scenes/session-recordings/player/playerUtils.ts:106-115 | Finds the first segment whose end offset on the player timeline exceeds the player time, or reports that none does. |
| `PlayerUtils.PlayerPositionFrom` | frontend/src/scenes/session-recordings/player/playerUtils.ts:105-120 | The accumulating scan picks the first segment ending after the player time. Failing that, it gives the last segment's end position at exactly the total duration, and `None` otherwise. |
| `PlayerUtils.PlayerPositionFromPlayerTime` | frontend/src/scenes/session-recordings/player/playerUtils.ts:101-121 | Uses the first segment with prefix + duration > player time, and gives that segment's window with `playerTime - prefix + start.time`. At exactly the total duration of a non-empty list it gives the last segment's end position. Otherwise it gives `None`. |
| `PlayerUtils.PlayerPositionNoneIff` | frontend/src/scenes/session-recordings/player/playerUtils.ts:101-121 | With no negative duration, the result is `None` exactly for an empty list or a time beyond the total duration. |
| `PlayerUtils.PlayerTimeRoundTrip` | frontend/src/scenes/session-recordings/player/playerUtils.ts:82-121 | For a well-formed recording and a player time in `[0, total]`, going to a position and back to player time returns the same time. |
| `PlayerUtils.PlayerPositionRoundTrip` | frontend/src/scenes/session-recordings/player/playerUtils.ts:82-121 | A position strictly before the end of its first containing segment survives the trip to player time and back, when durations are non-negative and match the segments' spans. |
| `PlayerUtils.PlayerPositionFromEpochTime` | frontend/src/scenes/session-recordings/player/playerUtils.ts:139-163 | The result is `None` exactly for an unknown window. Otherwise it is in that window, and the epoch time is clamped into `[start, end]`: the time lies in `[0, end - start]` when `start <= end`, is `e - start` inside the range, `0` below it and `end - start` above it. |
| `PlayerUtils.EpochTimeFromPlayerPosition` | frontend/src/scenes/session-recordings/player/playerUtils.ts:165-174 | The result is `None` exactly for an unknown window. Otherwise it is the window's start plus the position's time. |
| `PlayerUtils.EpochRoundTrip` | frontend/src/scenes/session-recordings/player/playerUtils.ts:150-171 | Epoch time inside a window's `[start, end]` survives the trip to a player position and back. A position with a time in `[0, end - start]` survives the opposite trip. |
| `PlayerUtils.GuessFrom` | frontend/src/scenes/session-recordings/player/playerUtils.ts:131-136 | Scanning from `k`, the first segment whose epoch range contains the time decides the result: it is the epoch position in that segment's window. The result is `None` when no segment does. |
| `PlayerUtils.GuessPlayerPositionFromEpochTimeWithoutWindowId` | frontend/src/scenes/session-recordings/player/playerUtils.ts:126-137 | The first segment whose epoch range contains the time decides the result: it is `getPlayerPositionFromEpochTime` in that segment's window. Returns `None` when no segment contains it. |
| `PlayerUtils.GuessRoundTrip` | frontend/src/scenes/session-recordings/player/playerUtils.ts:126-174 | When the first covering segment lies within its window's range, the guess is the offset from the window's start, and converting it back gives the same epoch time. |

## Left out

- The Kafka plumbing is left out: `startSessionRecordingEventsConsumer`, `startBatchConsumer`, and producer creation, flush and disconnect. These are I/O through libraries that are not part of this model. Produce outcomes are an input `acks(i)` for the `i`-th request. The flush result is a parameter that the model ignores, as the code does.
- `retryOnDependencyUnavailableError` is not part of this model. A store failure escaping a message aborts the batch as though the wrapper had given up. The in-place retries are not modelled.
- JSON parsing, `createSessionRecordingEvent`, `createPerformanceEvent` and `parseEventTimestamp` have bodies that are not part of this model. They are abstract functions in `Codec`, and a builder that throws is a `None`. The chosen timestamp and the default empty `properties` are therefore not modelled.
- The Postgres queries behind `fetchTeam`/`fetchTeamByToken` are abstract store functions. `ValidStore` states the `WHERE id = $1` / `WHERE api_token = $1` filters as a hypothesis.
- `ONE_MINUTE` comes from `plugin-server/src/config/constants.ts`, which is not part of this model. `TeamManager.OneMinuteMs` takes it as 60,000 ms, matching its name.
- `timeoutGuard` is left out because it is diagnostic only. Logging and the dropped-events counter are left out too; the drop cause is part of the disposition instead.
- The LRU internals are left out. Eviction order is not modelled: eviction is any removal (`Forgets`), and capacity is stated as a bound that eviction can restore. The lru-cache library is not part of this model. The model treats an entry as stale once its age exceeds the lifetime, and treats a stale entry as missing without deleting it on read.
- The store, the clock and the cache's state are explicit parameters. The store may differ between calls. Within one batch, every message is handled at the same `now` and with the same store.
- `setTeamIngestedEvent` is left out. It is a database update plus analytics capture side effects.
- `getXPos`, `isTouchEvent` and `isMouseEvent` are left out because they work on DOM events.
- `convertXToPlayerPosition` and `convertPlayerPositionToX` are left out because they use floating-point division and scaling.
- `addRecordingToPlaylist`, `removeRecordingFromPlaylist` and `getRowExpandedState` are left out. They are API calls, toasts and UI table state.
- `PlayerUtils.PlayerPositionFromEpochTime` and `PlayerUtils.EpochTimeFromPlayerPosition`: `WindowTimes` is a map of the object's own keys. JavaScript's `in` also finds keys inherited from `Object.prototype`, such as `"constructor"`. For such a window id the code yields a `NaN` time, while the model yields `None`. Window ids are UUIDs, so this does not arise in practice.
- Positions and times in the player are integers. The source's floating-point `number`s, and `NaN` in particular, are not modelled.
- `PlayerUtils.PlayerTimeRoundTrip`: this lemma is stated only for well-formed recordings. The segments of one window must not share a boundary time. Otherwise the first containing segment of the returned position can be an earlier segment of the same window.

## Findings

| source | as written | input that shows it | evidently intended | confidence | as-written member | corrected member |
|---|---|---|---|---|---|---|
| plugin-server/src/main/ingestion-queues/session-recordings-consumer.ts:293-297 | The `catch` around the event dispatch logs `event.uuid`. When the error came from `event` being `null`, reading `event.uuid` throws again, so the error escapes `eachMessage` and aborts the batch. | A message for an opted-in team whose envelope has `"data": "null"`. | Log the failure as a processing error, skip the message, and go on with the batch, as for a failing record builder. | medium, not executed | `SessionRecordingsConsumer.NullEventAbortsBatch` | `SessionRecordingsConsumer.GuardedHandleEvent` |

The batch model (`EachMessage`, `ProcessMessages`, `EachBatch`) keeps the behaviour as written, since that is what the consumer does. `GuardedHandleEvent` states the intended handling, and its contract ties it to `HandleEvent` on every other input.

=== FILE: player_utils.dfy ===
/**
 * Position arithmetic of the session-recording player.
 *
 * A recording is a list of segments, each lying in one browser window. A
 * player position is a window id and a time relative to that window's
 * start. The player timeline lays the segments end to end by their
 * durations; epoch time maps to a window's positions through the window's
 * start and end times. All times are integer milliseconds.
 */
module PlayerUtils {
  import opened Wrappers

  datatype PlayerPosition = PlayerPosition(windowId: string, time: int)

  datatype RecordingSegment = RecordingSegment(
    windowId: string,
    startPlayerPosition: PlayerPosition,
    endPlayerPosition: PlayerPosition,
    durationMs: int,
    startTimeEpochMs: int,
    endTimeEpochMs: int,
    isActive: bool)

  datatype RecordingStartAndEndTime = RecordingStartAndEndTime(startTimeEpochMs: int, endTimeEpochMs: int)

  /** `startAndEndTimesByWindowId`. */
  type WindowTimes = map<string, RecordingStartAndEndTime>

  /** The error `comparePlayerPositions` throws. */
  const PositionsNotFound: string := "Could not find player positions in segments"

  /** The segment is in the position's window and its closed time range
      contains the position's time. */
  predicate Contains(s: RecordingSegment, p: PlayerPosition) {
    p.windowId == s.windowId && s.startPlayerPosition.time <= p.time <= s.endPlayerPosition.time
  }

  /** The first index at or after `k` whose segment contains `p`. */
  function FindContaining(p: PlayerPosition, segments: seq<RecordingSegment>, k: nat): (r: Option<nat>)
    requires k <= |segments|
    ensures r.Some? ==> k <= r.value < |segments| && Contains(segments[r.value], p)
                        && forall j :: k <= j < r.value ==> !Contains(segments[j], p)
    ensures r.None? ==> forall j :: k <= j < |segments| ==> !Contains(segments[j], p)
    decreases |segments| - k
  {
    if k == |segments| then None
    else if Contains(segments[k], p) then Some(k)
    else FindContaining(p, segments, k + 1)
  }

  /** The index of the first segment containing `p`. */
  function FirstContaining(p: PlayerPosition, segments: seq<RecordingSegment>): Option<nat> {
    FindContaining(p, segments, 0)
  }

  /** Where segment `k` starts on the player timeline: the durations of the
      segments before it, summed. */
  function StartOffset(segments: seq<RecordingSegment>, k: nat): int
    requires k <= |segments|
  {
    if k == 0 then 0 else StartOffset(segments, k - 1) + segments[k - 1].durationMs
  }

  /** Where segment `k` ends on the player timeline. */
  function EndOffset(segments: seq<RecordingSegment>, k: nat): int
    requires k < |segments|
  {
    StartOffset(segments, k + 1)
  }

  /** The length of the player timeline. */
  function TotalDuration(segments: seq<RecordingSegment>): int {
    StartOffset(segments, |segments|)
  }

  predicate NonNegativeDurations(segments: seq<RecordingSegment>) {
    forall k :: 0 <= k < |segments| ==> segments[k].durationMs >= 0
  }

  /** Offsets never decrease along the list when no duration is negative. */
  lemma {:induction false} StartOffsetMonotone(segments: seq<RecordingSegment>, i: nat, j: nat)
    requires NonNegativeDurations(segments)
    requires i <= j <= |segments|
    ensures StartOffset(segments, i) <= StartOffset(segments, j)
    decreases j - i
  {
    if i < j {
      StartOffsetMonotone(segments, i, j - 1);
      assert segments[j - 1].durationMs >= 0;
    }
  }

  // ---------------------------------------------------------------------------
  // Positions within segments

  /** `comparePlayerPositions`, from segment `k` on when the windows differ. */
  function CompareFrom(a: PlayerPosition, b: PlayerPosition, segments: seq<RecordingSegment>, k: nat): (r: Result<int, string>)
    requires k <= |segments|
    ensures var ia := FindContaining(a, segments, k);
            var ib := FindContaining(b, segments, k);
            && (r == Success(-1) <==> ia.Some? && (ib.None? || ia.value <= ib.value))
            && (r == Success(1) <==> ib.Some? && (ia.None? || ib.value < ia.value))
            && (r.Failure? <==> ia.None? && ib.None?)
            && (r.Failure? ==> r.error == PositionsNotFound)
    decreases |segments| - k
  {
    if k == |segments| then Failure(PositionsNotFound)
    else if Contains(segments[k], a) then Success(-1)
    else if Contains(segments[k], b) then Success(1)
    else CompareFrom(a, b, segments, k + 1)
  }

  /** `comparePlayerPositions`: within one window the time difference;
      across windows `-1` when `a`'s first containing segment comes first,
      `1` when `b`'s does, and a failure when neither is in any segment. */
  function ComparePlayerPositions(a: PlayerPosition, b: PlayerPosition, segments: seq<RecordingSegment>): (r: Result<int, string>)
    ensures a.windowId == b.windowId ==> r == Success(a.time - b.time)
    ensures a.windowId != b.windowId ==>
              var ia := FirstContaining(a, segments);
              var ib := FirstContaining(b, segments);
              && (r == Success(-1) <==> ia.Some? && (ib.None? || ia.value < ib.value))
              && (r == Success(1) <==> ib.Some? && (ia.None? || ib.value < ia.value))
              && (r.Failure? <==> ia.None? && ib.None?)
  {
    if a.windowId == b.windowId then Success(a.time - b.time)
    else
      var ia := FirstContaining(a, segments);
      var ib := FirstContaining(b, segments);
      assert ia.Some? && ib.Some? ==> ia.value != ib.value;
      CompareFrom(a, b, segments, 0)
  }

  /** Comparison is antisymmetric, and a position compares equal to itself. */
  lemma CompareAntisymmetric(a: PlayerPosition, b: PlayerPosition, segments: seq<RecordingSegment>)
    ensures ComparePlayerPositions(a, a, segments) == Success(0)
    ensures ComparePlayerPositions(a, b, segments).Success? ==>
              ComparePlayerPositions(b, a, segments) == Success(-ComparePlayerPositions(a, b, segments).value)
    ensures ComparePlayerPositions(a, b, segments).Failure? <==> ComparePlayerPositions(b, a, segments).Failure?
  {
  }

  /** `getSegmentFromPlayerPosition`, from segment `k` on. */
  function SegmentFrom(p: PlayerPosition, segments: seq<RecordingSegment>, k: nat): (r: Option<RecordingSegment>)
    requires k <= |segments|
    ensures var i := FindContaining(p, segments, k);
            r == if i.Some? then Some(segments[i.value]) else None
    decreases |segments| - k
  {
    if k == |segments| then None
    else if Contains(segments[k], p) then Some(segments[k])
    else SegmentFrom(p, segments, k + 1)
  }

  /** `getSegmentFromPlayerPosition`: the first segment containing `p`. */
  function SegmentFromPlayerPosition(p: PlayerPosition, segments: seq<RecordingSegment>): (r: Option<RecordingSegment>)
    ensures r.None? <==> forall j :: 0 <= j < |segments| ==> !Contains(segments[j], p)
    ensures r.Some? ==> exists i :: 0 <= i < |segments| && segments[i] == r.value && Contains(r.value, p)
                                   && forall j :: 0 <= j < i ==> !Contains(segments[j], p)
  {
    var r := SegmentFrom(p, segments, 0);
    assert r.Some? ==> segments[FirstContaining(p, segments).value] == r.value;
    r
  }

  /** `getPlayerTimeFromPlayerPosition`, from segment `k` on, with `elapsed`
      the durations already passed. */
  function PlayerTimeFrom(p: PlayerPosition, segments: seq<RecordingSegment>, k: nat, elapsed: int): (r: Option<int>)
    requires k <= |segments|
    ensures var i := FindContaining(p, segments, k);
            && (r.None? <==> i.None?)
            && (r.Some? ==> r.value == elapsed + StartOffset(segments, i.value) - StartOffset(segments, k)
                                       + p.time - segments[i.value].startPlayerPosition.time)
    decreases |segments| - k
  {
    if k == |segments| then None
    else if Contains(segments[k], p) then Some(elapsed + p.time - segments[k].startPlayerPosition.time)
    else PlayerTimeFrom(p, segments, k + 1, elapsed + segments[k].durationMs)
  }

  /** `getPlayerTimeFromPlayerPosition`: the start offset of the first
      segment containing `p` plus how far into that segment `p` lies; `None`
      exactly when no segment contains `p`. */
  function PlayerTimeFromPlayerPosition(p: PlayerPosition, segments: seq<RecordingSegment>): (r: Option<int>)
    ensures r.None? <==> SegmentFromPlayerPosition(p, segments).None?
    ensures r.Some? ==> var i := FirstContaining(p, segments).value;
                        r.value == StartOffset(segments, i) + p.time - segments[i].startPlayerPosition.time
  {
    PlayerTimeFrom(p, segments, 0, 0)
  }

  /** The first index at or after `k` whose segment ends after `t` on the
      player timeline. */
  function FindEndingAfter(t: int, segments: seq<RecordingSegment>, k: nat): (r: Option<nat>)
    requires k <= |segments|
    ensures r.Some? ==> k <= r.value < |segments| && EndOffset(segments, r.value) > t
                        && forall j :: k <= j < r.value ==> EndOffset(segments, j) <= t
    ensures r.None? ==> forall j :: k <= j < |segments| ==> EndOffset(segments, j) <= t
    decreases |segments| - k
  {
    if k == |segments| then None
    else if EndOffset(segments, k) > t then Some(k)
    else FindEndingAfter(t, segments, k + 1)
  }

  /** `getPlayerPositionFromPlayerTime`, from segment `k` on, with
      `elapsed` the durations already passed. */
  function PlayerPositionFrom(t: int, segments: seq<RecordingSegment>, k: nat, elapsed: int): (r: Option<PlayerPosition>)
    requires k <= |segments|
    requires elapsed == StartOffset(segments, k)
    ensures match FindEndingAfter(t, segments, k)
            case Some(i) =>
              r == Some(PlayerPosition(segments[i].windowId,
                                       t - StartOffset(segments, i) + segments[i].startPlayerPosition.time))
            case None =>
              r == if t == TotalDuration(segments) && |segments| > 0
                   then Some(segments[|segments| - 1].endPlayerPosition) else None
    decreases |segments| - k
  {
    if k == |segments| then
      if t == elapsed && |segments| > 0 then Some(segments[|segments| - 1].endPlayerPosition) else None
    else if elapsed + segments[k].durationMs > t then
      Some(PlayerPosition(segments[k].windowId, t - elapsed + segments[k].startPlayerPosition.time))
    else PlayerPositionFrom(t, segments, k + 1, elapsed + segments[k].durationMs)
  }

  /** `getPlayerPositionFromPlayerTime`: the first segment ending after `t`
      on the player timeline, at `t`'s distance from that segment's start; at
      exactly the total duration, the last segment's end position. */
  function PlayerPositionFromPlayerTime(t: int, segments: seq<RecordingSegment>): (r: Option<PlayerPosition>)
    ensures match FindEndingAfter(t, segments, 0)
            case Some(i) =>
              r == Some(PlayerPosition(segments[i].windowId,
                                       t - StartOffset(segments, i) + segments[i].startPlayerPosition.time))
            case None =>
              r == if t == TotalDuration(segments) && |segments| > 0
                   then Some(segments[|segments| - 1].endPlayerPosition) else None
  {
    PlayerPositionFrom(t, segments, 0, 0)
  }

  /** With no negative duration, there is no position exactly for an empty
      recording and for times past the total duration. */
  lemma PlayerPositionNoneIff(t: int, segments: seq<RecordingSegment>)
    requires NonNegativeDurations(segments)
    ensures PlayerPositionFromPlayerTime(t, segments).None? <==> |segments| == 0 || t > TotalDuration(segments)
  {
    var n := |segments|;
    if n > 0 && t < TotalDuration(segments) {
      assert EndOffset(segments, n - 1) > t;
    }
    if n > 0 && t > TotalDuration(segments) {
      forall j | 0 <= j < n
        ensures EndOffset(segments, j) <= t
      {
        StartOffsetMonotone(segments, j + 1, n);
      }
    }
  }

  /** Segment `k` is consistent: its duration is its time span, it is not
      negative, and both end positions lie in the segment's window. */
  predicate SegmentConsistent(s: RecordingSegment) {
    && s.durationMs == s.endPlayerPosition.time - s.startPlayerPosition.time
    && s.durationMs >= 0
    && s.startPlayerPosition.windowId == s.windowId
    && s.endPlayerPosition.windowId == s.windowId
  }

  /** Consistent segments, and within each window, later segments start after
      earlier ones end. */
  predicate WellFormed(segments: seq<RecordingSegment>) {
    && (forall k :: 0 <= k < |segments| ==> SegmentConsistent(segments[k]))
    && (forall i, j :: 0 <= i < j < |segments| && segments[i].windowId == segments[j].windowId ==>
          segments[i].endPlayerPosition.time < segments[j].startPlayerPosition.time)
  }

  /** A position in segment `k` before its end, or the end of the last
      segment, is first contained in segment `k`. */
  lemma FirstContainingInWellFormed(segments: seq<RecordingSegment>, k: nat, p: PlayerPosition)
    requires WellFormed(segments)
    requires k < |segments| && Contains(segments[k], p)
    ensures FirstContaining(p, segments) == Some(k)
  {
  }

  /** Player time to position and back is the identity on the timeline
      `[0, total]` of a well-formed recording. */
  lemma PlayerTimeRoundTrip(t: int, segments: seq<RecordingSegment>)
    requires WellFormed(segments)
    requires 0 <= t <= TotalDuration(segments)
    requires |segments| > 0
    ensures PlayerPositionFromPlayerTime(t, segments).Some?
    ensures PlayerTimeFromPlayerPosition(PlayerPositionFromPlayerTime(t, segments).value, segments) == Some(t)
  {
    var n := |segments|;
    var q := PlayerPositionFromPlayerTime(t, segments);
    match FindEndingAfter(t, segments, 0)
    case Some(k) =>
      if k > 0 {
        assert EndOffset(segments, k - 1) <= t;
      }
      FirstContainingInWellFormed(segments, k, q.value);
    case None =>
      assert EndOffset(segments, n - 1) <= t;
      FirstContainingInWellFormed(segments, n - 1, q.value);
  }

  /** Position to player time and back is the identity for a position that
      lies before the end of its first containing segment, when no duration
      is negative. */
  lemma PlayerPositionRoundTrip(p: PlayerPosition, segments: seq<RecordingSegment>)
    requires NonNegativeDurations(segments)
    requires forall k :: 0 <= k < |segments| ==>
               segments[k].durationMs == segments[k].endPlayerPosition.time - segments[k].startPlayerPosition.time
    requires FirstContaining(p, segments).Some?
    requires p.time < segments[FirstContaining(p, segments).value].endPlayerPosition.time
    ensures PlayerTimeFromPlayerPosition(p, segments).Some?
    ensures PlayerPositionFromPlayerTime(PlayerTimeFromPlayerPosition(p, segments).value, segments) == Some(p)
  {
    var k := FirstContaining(p, segments).value;
    var t := PlayerTimeFromPlayerPosition(p, segments).value;
    assert EndOffset(segments, k) > t;
    var i := FindEndingAfter(t, segments, 0);
    if i.Some? && i.value < k {
      StartOffsetMonotone(segments, i.value + 1, k);
    }
    assert i == Some(k);
  }

  // ---------------------------------------------------------------------------
  // Epoch time

  /** `getPlayerPositionFromEpochTime`: the epoch time clamped into the
      window's `[start, end]`, as an offset from the window's start; `None`
      for a window without start and end times. */
  function PlayerPositionFromEpochTime(epochTime: int, windowId: string, windows: WindowTimes): (r: Option<PlayerPosition>)
    ensures r.None? <==> windowId !in windows
    ensures r.Some? ==> r.value.windowId == windowId
    ensures r.Some? ==>
              var start := windows[windowId].startTimeEpochMs;
              var end := windows[windowId].endTimeEpochMs;
              && (start <= end ==> 0 <= r.value.time <= end - start)
              && (start <= epochTime <= end ==> r.value.time == epochTime - start)
              && (epochTime < start <= end ==> r.value.time == 0)
              && (start <= end < epochTime ==> r.value.time == end - start)
  {
    if windowId in windows then
      var start := windows[windowId].startTimeEpochMs;
      var end := windows[windowId].endTimeEpochMs;
      var clampedLow := if start > epochTime then start else epochTime;
      var clamped := if end < clampedLow then end else clampedLow;
      Some(PlayerPosition(windowId, clamped - start))
    else None
  }

  /** `getEpochTimeFromPlayerPosition`. */
  function EpochTimeFromPlayerPosition(p: PlayerPosition, windows: WindowTimes): (r: Option<int>)
    ensures r.None? <==> p.windowId !in windows
    ensures r.Some? ==> r.value - windows[p.windowId].startTimeEpochMs == p.time
  {
    if p.windowId in windows then Some(windows[p.windowId].startTimeEpochMs + p.time) else None
  }

  /** Epoch time inside a window's range survives the trip to a player
      position and back; a position inside the window's span survives the
      opposite trip. */
  lemma EpochRoundTrip(epochTime: int, windowId: string, windows: WindowTimes, p: PlayerPosition)
    requires windowId in windows
    ensures var w := windows[windowId];
            w.startTimeEpochMs <= epochTime <= w.endTimeEpochMs ==>
              EpochTimeFromPlayerPosition(PlayerPositionFromEpochTime(epochTime, windowId, windows).value, windows)
                == Some(epochTime)
    ensures p.windowId in windows
            && 0 <= p.time <= windows[p.windowId].endTimeEpochMs - windows[p.windowId].startTimeEpochMs ==>
              PlayerPositionFromEpochTime(EpochTimeFromPlayerPosition(p, windows).value, p.windowId, windows)
                == Some(p)
  {
  }

  /** The segment's epoch range contains `epochTime`. */
  predicate CoversEpoch(s: RecordingSegment, epochTime: int) {
    s.startTimeEpochMs <= epochTime <= s.endTimeEpochMs
  }

  /** `guessPlayerPositionFromEpochTimeWithoutWindowId`, from segment `k` on. */
  function GuessFrom(epochTime: int, windows: WindowTimes, segments: seq<RecordingSegment>, k: nat): (r: Option<PlayerPosition>)
    requires k <= |segments|
    ensures r.Some? ==> exists i :: k <= i < |segments| && CoversEpoch(segments[i], epochTime)
                                   && (forall j :: k <= j < i ==> !CoversEpoch(segments[j], epochTime))
                                   && r == PlayerPositionFromEpochTime(epochTime, segments[i].windowId, windows)
    ensures (forall j :: k <= j < |segments| ==> !CoversEpoch(segments[j], epochTime)) ==> r.None?
    ensures forall i :: k <= i < |segments| && CoversEpoch(segments[i], epochTime)
                        && (forall j :: k <= j < i ==> !CoversEpoch(segments[j], epochTime)) ==>
              r == PlayerPositionFromEpochTime(epochTime, segments[i].windowId, windows)
    decreases |segments| - k
  {
    if k == |segments| then None
    else if CoversEpoch(segments[k], epochTime) then
      PlayerPositionFromEpochTime(epochTime, segments[k].windowId, windows)
    else GuessFrom(epochTime, windows, segments, k + 1)
  }

  /** `guessPlayerPositionFromEpochTimeWithoutWindowId`: the position in the
      window of the first segment whose epoch range contains `epochTime`;
      `None` when no segment does. */
  function GuessPlayerPositionFromEpochTimeWithoutWindowId(epochTime: int, windows: WindowTimes,
                                                           segments: seq<RecordingSegment>): (r: Option<PlayerPosition>)
    ensures r.Some? ==> exists i :: 0 <= i < |segments| && CoversEpoch(segments[i], epochTime)
                                   && (forall j :: 0 <= j < i ==> !CoversEpoch(segments[j], epochTime))
                                   && r == PlayerPositionFromEpochTime(epochTime, segments[i].windowId, windows)
    ensures (forall j :: 0 <= j < |segments| ==> !CoversEpoch(segments[j], epochTime)) ==> r.None?
    ensures forall i :: 0 <= i < |segments| && CoversEpoch(segments[i], epochTime)
                        && (forall j :: 0 <= j < i ==> !CoversEpoch(segments[j], epochTime)) ==>
              r == PlayerPositionFromEpochTime(epochTime, segments[i].windowId, windows)
  {
    GuessFrom(epochTime, windows, segments, 0)
  }

  /** When the first segment covering `epochTime` lies within its window's
      range, the guessed position maps back to exactly `epochTime`. */
  lemma GuessRoundTrip(epochTime: int, windows: WindowTimes, segments: seq<RecordingSegment>, i: nat)
    requires i < |segments| && CoversEpoch(segments[i], epochTime)
    requires forall j :: 0 <= j < i ==> !CoversEpoch(segments[j], epochTime)
    requires segments[i].windowId in windows
    requires windows[segments[i].windowId].startTimeEpochMs <= segments[i].startTimeEpochMs
    requires segments[i].endTimeEpochMs <= windows[segments[i].windowId].endTimeEpochMs
    ensures var r := GuessPlayerPositionFromEpochTimeWithoutWindowId(epochTime, windows, segments);
            && r == Some(PlayerPosition(segments[i].windowId,
                                        epochTime - windows[segments[i].windowId].startTimeEpochMs))
            && EpochTimeFromPlayerPosition(r.value, windows) == Some(epochTime)
  {
    var w := segments[i].windowId;
    var r := GuessPlayerPositionFromEpochTimeWithoutWindowId(epochTime, windows, segments);
    assert r == PlayerPositionFromEpochTime(epochTime, w, windows);
    assert windows[w].startTimeEpochMs <= epochTime <= windows[w].endTimeEpochMs;
  }
}

=== FILE: session_recordings_consumer.dfy ===
/**
 * The session-recordings consumer of the ingestion server.
 *
 * Each raw broker message gets exactly one disposition: dead-lettered with
 * its original value and key, dropped with a counted cause, one record to
 * one of two output topics, or swallowed after a failure while building the
 * record. A batch threads the team cache through its messages in order,
 * concatenates their produce requests, ignores the flush result, and is
 * committed only when no produce request was rejected with a retriable error.
 *
 * JSON decoding and record construction are abstract functions collected in
 * a `Codec`; team lookup goes through the `TeamManager` model.
 */
module SessionRecordingsConsumer {
  import opened Wrappers
  import opened TeamManager

  newtype byte = x: int | 0 <= x < 256

  type Bytes = seq<byte>

  /** A broker message key is either a buffer or a string. */
  datatype MessageKey = BufferKey(bytes: Bytes) | StringKey(text: string)

  /** A message as delivered by the broker; `value` and `timestamp` may be missing. */
  datatype Message = Message(
    partition: int,
    offset: int,
    key: Option<MessageKey>,
    value: Option<Bytes>,
    timestamp: Option<int>)

  /** The outer JSON envelope written by the capture endpoint. */
  datatype RawEventMessage = RawEventMessage(
    uuid: string,
    distinctId: string,
    teamId: Option<TeamId>,
    token: Option<string>,
    data: string)

  /** The inner event decoded from the envelope's `data`. */
  datatype PipelineEvent = PipelineEvent(uuid: string, event: string, ip: Option<string>)

  /** What `JSON.parse(messagePayload.data)` yields: the JSON text `null`
      parses without error, and only reading a field of it throws. Any other
      non-object value reads as an object whose fields are missing. */
  datatype InnerEvent = NullEvent | EventObject(fields: PipelineEvent)

  const SnapshotEvent: string := "$snapshot"
  const PerformanceEventName: string := "$performance_event"

  /** The code this consumer calls but that is not modelled: the two JSON
      decodings (`None` when `JSON.parse` throws, or when the envelope is
      itself `null` so that reading its `data` throws inside the same `try`)
      and the two record builders, already serialised (`None` when building
      the record throws). */
  datatype Codec = Codec(
    decodeMessage: Bytes -> Option<RawEventMessage>,
    decodeEvent: string -> Option<InnerEvent>,
    sessionRecordingRecord: (RawEventMessage, Team, PipelineEvent) -> Option<Bytes>,
    performanceRecord: (RawEventMessage, Team, PipelineEvent) -> Option<Bytes>)

  /** The dead-letter topic and the two output topics. */
  datatype Topic = SessionRecordingEventsDlq | ClickHouseSessionRecordingEvents | PerformanceEvents

  datatype ProduceRequest = ProduceRequest(topic: Topic, value: Option<Bytes>, key: Option<MessageKey>)

  datatype InvalidReason = Empty | InvalidJson

  /** The `drop_cause` labels of the dropped-events counter. */
  datatype DropCause = NoToken | InvalidToken | Disabled | InvalidEventType

  /** The one outcome of handling a message. */
  datatype Disposition =
    | DeadLetter(reason: InvalidReason, value: Option<Bytes>, key: Option<MessageKey>)
    | Dropped(cause: DropCause)
    | Emitted(topic: Topic, record: Bytes, key: Option<MessageKey>)
    | ProcessingError

  /** The produce requests a disposition hands back to the batch. */
  function Requests(d: Disposition): (r: seq<ProduceRequest>)
    ensures |r| <= 1
    ensures |r| == 1 <==> d.DeadLetter? || d.Emitted?
    ensures forall req | req in r :: req.key == d.key
    ensures d.DeadLetter? ==> forall req | req in r :: req.topic == SessionRecordingEventsDlq && req.value == d.value
    ensures d.Emitted? ==> forall req | req in r :: req.topic == d.topic && req.value == Some(d.record)
  {
    match d
    case DeadLetter(_, value, key) => [ProduceRequest(SessionRecordingEventsDlq, value, key)]
    case Emitted(topic, record, key) => [ProduceRequest(topic, Some(record), key)]
    case _ => []
  }

  /** `message.key ? Buffer.from(message.key) : null`: every key is kept
      except a missing one and the empty string, which is falsy. */
  function ForwardedKey(key: Option<MessageKey>): (r: Option<MessageKey>)
    ensures r.Some? ==> r == key
    ensures r.None? <==> key.None? || key == Some(StringKey(""))
  {
    match key
    case Some(StringKey(text)) => if text == "" then None else key
    case _ => key
  }

  /** `!message.timestamp` is false: present and not `0`. */
  predicate HasTimestamp(m: Message) {
    m.timestamp.Some? && m.timestamp.value != 0
  }

  /** `messagePayload.token` is truthy: present and not empty. */
  predicate HasToken(payload: RawEventMessage) {
    payload.token.Some? && payload.token.value != ""
  }

  /** Both `JSON.parse` steps; `None` when either throws. */
  function Decode(value: Bytes, codec: Codec): (r: Option<(RawEventMessage, InnerEvent)>)
    ensures r.Some? <==> codec.decodeMessage(value).Some?
                         && codec.decodeEvent(codec.decodeMessage(value).value.data).Some?
    ensures r.Some? ==> r.value == (codec.decodeMessage(value).value,
                                    codec.decodeEvent(codec.decodeMessage(value).value.data).value)
  {
    match codec.decodeMessage(value)
    case None => None
    case Some(payload) =>
      match codec.decodeEvent(payload.data)
      case None => None
      case Some(event) => Some((payload, event))
  }

  /** Team lookup: a non-null `team_id`, even `0`, goes through `fetchTeam`
      and the token is ignored; the token is used only when `team_id` is null. */
  function ResolveTeam(payload: RawEventMessage, c: Cache, store: Store, now: int): (r: Resolution)
    ensures payload.teamId.Some? ==> r == FetchTeam(c, store, payload.teamId.value, now)
    ensures payload.teamId.None? && HasToken(payload) ==>
              r == GetTeamByToken(c, store, payload.token.value, now)
    ensures payload.teamId.None? && !HasToken(payload) ==> r == Resolution(Success(None), c)
    ensures payload.teamId.Some? ==> r.cache.tokens == c.tokens
    ensures r.cache.queries <= c.queries + 1
  {
    if payload.teamId.Some? then FetchTeam(c, store, payload.teamId.value, now)
    else if HasToken(payload) then GetTeamByToken(c, store, payload.token.value, now)
    else Resolution(Success(None), c)
  }

  /** The opt-in gate and the dispatch on the event name for a resolved team. */
  function Transform(payload: RawEventMessage, team: Team, event: PipelineEvent,
                     key: Option<MessageKey>, codec: Codec): (r: Disposition)
    ensures !team.sessionRecordingOptIn ==> r == Dropped(Disabled)
    ensures team.sessionRecordingOptIn && event.event == SnapshotEvent ==>
              match codec.sessionRecordingRecord(payload, team, event)
              case Some(record) => r == Emitted(ClickHouseSessionRecordingEvents, record, key)
              case None => r == ProcessingError
    ensures team.sessionRecordingOptIn && event.event == PerformanceEventName ==>
              match codec.performanceRecord(payload, team, event)
              case Some(record) => r == Emitted(PerformanceEvents, record, key)
              case None => r == ProcessingError
    ensures (team.sessionRecordingOptIn && event.event != SnapshotEvent
             && event.event != PerformanceEventName) ==> r == Dropped(InvalidEventType)
  {
    if !team.sessionRecordingOptIn then
      Dropped(Disabled)
    else if event.event == SnapshotEvent then
      match codec.sessionRecordingRecord(payload, team, event)
      case Some(record) => Emitted(ClickHouseSessionRecordingEvents, record, key)
      case None => ProcessingError
    else if event.event == PerformanceEventName then
      match codec.performanceRecord(payload, team, event)
      case Some(record) => Emitted(PerformanceEvents, record, key)
      case None => ProcessingError
    else
      Dropped(InvalidEventType)
  }

  /** An error escaping `eachMessage`: a store failure during the team
      lookup, or the `TypeError` of reading a field of a `null` inner event,
      which the `catch` block raises again while logging `event.uuid`. */
  datatype MessageFailure = DependencyUnavailable(error: StoreError) | NullEventAccess

  /** The opt-in gate and dispatch applied to whatever the inner `data`
      decoded to, for a resolved team. An opted-out team never reads the
      event; an opted-in one reads `event.event`, which throws for `null`. */
  function HandleEvent(payload: RawEventMessage, team: Team, inner: InnerEvent,
                       key: Option<MessageKey>, codec: Codec): (r: Result<Disposition, MessageFailure>)
    ensures inner.EventObject? ==> r == Success(Transform(payload, team, inner.fields, key, codec))
    ensures !team.sessionRecordingOptIn ==> r == Success(Dropped(Disabled))
    ensures r.Failure? <==> inner.NullEvent? && team.sessionRecordingOptIn
    ensures r.Failure? ==> r.error == NullEventAccess
  {
    match inner
    case EventObject(event) => Success(Transform(payload, team, event, key, codec))
    case NullEvent => if team.sessionRecordingOptIn then Failure(NullEventAccess) else Success(Dropped(Disabled))
  }

  /** The intended handling of a `null` inner event: the error raised inside
      the `try` is logged as a processing error and swallowed, like any other
      failure while building the record. */
  function GuardedHandleEvent(payload: RawEventMessage, team: Team, inner: InnerEvent,
                              key: Option<MessageKey>, codec: Codec): (r: Disposition)
    ensures HandleEvent(payload, team, inner, key, codec).Success? ==>
              r == HandleEvent(payload, team, inner, key, codec).value
    ensures HandleEvent(payload, team, inner, key, codec).Failure? ==> r == ProcessingError
    ensures Requests(r) == [] || (inner.EventObject? && r == Transform(payload, team, inner.fields, key, codec))
  {
    match inner
    case EventObject(event) => Transform(payload, team, event, key, codec)
    case NullEvent => if team.sessionRecordingOptIn then ProcessingError else Dropped(Disabled)
  }

  /** Handling one message either yields a disposition or lets an error
      escape, together with the team cache it leaves behind. */
  datatype MessageStep = MessageStep(outcome: Result<Disposition, MessageFailure>, cache: Cache)

  /** `eachMessage`. */
  function EachMessage(m: Message, codec: Codec, c: Cache, store: Store, now: int): (r: MessageStep)
    ensures m.value.None? || !HasTimestamp(m) ==>
              r == MessageStep(Success(DeadLetter(Empty, m.value, ForwardedKey(m.key))), c)
    ensures m.value.Some? && HasTimestamp(m) && Decode(m.value.value, codec).None? ==>
              r == MessageStep(Success(DeadLetter(InvalidJson, m.value, ForwardedKey(m.key))), c)
    ensures (r.outcome.Success? && r.outcome.value.DeadLetter?) <==>
              (m.value.None? || !HasTimestamp(m) || Decode(m.value.value, codec).None?)
    ensures r.outcome.Success? ==>
              forall req | req in Requests(r.outcome.value) :: req.key == ForwardedKey(m.key)
    ensures r.outcome == Success(Dropped(NoToken)) ==> r.cache == c
    ensures r.outcome.Failure? && r.outcome.error.DependencyUnavailable? ==>
              r.cache.teams == c.teams && r.cache.tokens == c.tokens
    ensures r.outcome.Failure? && r.outcome.error.NullEventAccess? ==>
              m.value.Some? && Decode(m.value.value, codec).Some? && Decode(m.value.value, codec).value.1.NullEvent?
    ensures r.cache.queries <= c.queries + 1
  {
    if m.value.None? || !HasTimestamp(m) then
      MessageStep(Success(DeadLetter(Empty, m.value, ForwardedKey(m.key))), c)
    else
      match Decode(m.value.value, codec)
      case None => MessageStep(Success(DeadLetter(InvalidJson, m.value, ForwardedKey(m.key))), c)
      case Some((payload, inner)) =>
        if payload.teamId.None? && !HasToken(payload) then
          MessageStep(Success(Dropped(NoToken)), c)
        else
          var resolved := ResolveTeam(payload, c, store, now);
          match resolved.answer
          case Failure(e) => MessageStep(Failure(DependencyUnavailable(e)), resolved.cache)
          case Success(None) => MessageStep(Success(Dropped(InvalidToken)), resolved.cache)
          case Success(Some(team)) =>
            MessageStep(HandleEvent(payload, team, inner, ForwardedKey(m.key), codec), resolved.cache)
  }

  /** A message without a value or with a falsy timestamp becomes exactly one
      produce request to the dead-letter topic, carrying the original value and
      key, with no team lookup. */
  lemma EmptyMessageIsDeadLettered(m: Message, codec: Codec, c: Cache, store: Store, now: int)
    requires m.value.None? || !HasTimestamp(m)
    ensures var r := EachMessage(m, codec, c, store, now);
            && r.cache == c
            && r.outcome.Success?
            && Requests(r.outcome.value) == [ProduceRequest(SessionRecordingEventsDlq, m.value, ForwardedKey(m.key))]
  {
    var r := EachMessage(m, codec, c, store, now);
    var d := DeadLetter(Empty, m.value, ForwardedKey(m.key));
    assert r.outcome == Success(d);
    assert Requests(d) == [ProduceRequest(SessionRecordingEventsDlq, m.value, ForwardedKey(m.key))];
  }

  /** A decoded envelope with neither `team_id` nor a truthy token is dropped
      as `no_token` without any team lookup or produce. */
  lemma NoCredentialDropsWithoutLookup(m: Message, codec: Codec, c: Cache, store: Store, now: int,
                                       payload: RawEventMessage, inner: InnerEvent)
    requires m.value.Some? && HasTimestamp(m)
    requires Decode(m.value.value, codec) == Some((payload, inner))
    requires payload.teamId.None? && !HasToken(payload)
    ensures EachMessage(m, codec, c, store, now) == MessageStep(Success(Dropped(NoToken)), c)
    ensures Requests(EachMessage(m, codec, c, store, now).outcome.value) == []
  {
  }

  /** A non-null `team_id` decides the lookup whatever the token says. */
  lemma TeamIdTakesPrecedence(payload: RawEventMessage, token: Option<string>, c: Cache, store: Store, now: int)
    requires payload.teamId.Some?
    ensures ResolveTeam(payload.(token := token), c, store, now) == ResolveTeam(payload, c, store, now)
    ensures ResolveTeam(payload, c, store, now).cache.tokens == c.tokens
  {
  }

  /** Once the envelope decodes and carries a credential, the message is
      dropped as `invalid_token` when no team is found, and otherwise gets the
      opt-in gate and dispatch of `HandleEvent` with the message's key. */
  lemma ResolvedMessageDisposition(m: Message, codec: Codec, c: Cache, store: Store, now: int,
                                   payload: RawEventMessage, inner: InnerEvent)
    requires m.value.Some? && HasTimestamp(m)
    requires Decode(m.value.value, codec) == Some((payload, inner))
    requires payload.teamId.Some? || HasToken(payload)
    ensures var resolved := ResolveTeam(payload, c, store, now);
            var r := EachMessage(m, codec, c, store, now);
            && r.cache == resolved.cache
            && (resolved.answer == Success(None) ==> r.outcome == Success(Dropped(InvalidToken)))
            && (resolved.answer.Success? && resolved.answer.value.Some? ==>
                  r.outcome == HandleEvent(payload, resolved.answer.value.value, inner, ForwardedKey(m.key), codec))
            && (resolved.answer.Failure? ==> r.outcome == Failure(DependencyUnavailable(resolved.answer.error)))
  {
  }

  /** A team that has not opted in to session recording gets no record for
      any event name, nor for a `null` event, which is never read; the drop is
      counted as `disabled`. */
  lemma OptedOutTeamProducesNothing(m: Message, codec: Codec, c: Cache, store: Store, now: int,
                                    payload: RawEventMessage, inner: InnerEvent, team: Team)
    requires m.value.Some? && HasTimestamp(m)
    requires Decode(m.value.value, codec) == Some((payload, inner))
    requires payload.teamId.Some? || HasToken(payload)
    requires ResolveTeam(payload, c, store, now).answer == Success(Some(team))
    requires !team.sessionRecordingOptIn
    ensures EachMessage(m, codec, c, store, now).outcome == Success(Dropped(Disabled))
    ensures Requests(EachMessage(m, codec, c, store, now).outcome.value) == []
  {
    ResolvedMessageDisposition(m, codec, c, store, now, payload, inner);
  }

  // ---------------------------------------------------------------------------
  // Batches

  /** The processing phase of a batch: produce requests issued so far, the
      error that stopped it if any, and the team cache it leaves. */
  datatype BatchRun = BatchRun(pending: seq<ProduceRequest>, failure: Option<MessageFailure>, cache: Cache)

  /** Messages handled strictly in order, each seeing the cache the previous
      one left; an error escaping a message stops the batch. */
  function ProcessMessages(ms: seq<Message>, codec: Codec, c: Cache, store: Store, now: int): (r: BatchRun)
    ensures |r.pending| <= |ms|
    ensures r.cache.queries <= c.queries + |ms|
    decreases |ms|
  {
    if |ms| == 0 then BatchRun([], None, c)
    else
      var step := EachMessage(ms[0], codec, c, store, now);
      match step.outcome
      case Failure(e) => BatchRun([], Some(e), step.cache)
      case Success(d) =>
        var rest := ProcessMessages(ms[1..], codec, step.cache, store, now);
        BatchRun(Requests(d) + rest.pending, rest.failure, rest.cache)
  }

  /** Processing `xs + ys` is processing `xs`, then `ys` from the cache `xs`
      left, with the produce requests concatenated in that order. */
  lemma {:induction false} ProcessMessagesAppend(xs: seq<Message>, ys: seq<Message>, codec: Codec,
                                                 c: Cache, store: Store, now: int)
    ensures var first := ProcessMessages(xs, codec, c, store, now);
            ProcessMessages(xs + ys, codec, c, store, now) ==
              if first.failure.Some? then first
              else
                var second := ProcessMessages(ys, codec, first.cache, store, now);
                BatchRun(first.pending + second.pending, second.failure, second.cache)
    decreases |xs|
  {
    if |xs| == 0 {
      assert xs + ys == ys;
    } else {
      var step := EachMessage(xs[0], codec, c, store, now);
      assert (xs + ys)[0] == xs[0];
      assert (xs + ys)[1..] == xs[1..] + ys;
      match step.outcome {
        case Failure(e) =>
        case Success(d) =>
          ProcessMessagesAppend(xs[1..], ys, codec, step.cache, store, now);
          var first := ProcessMessages(xs[1..], codec, step.cache, store, now);
          if first.failure.None? {
            var second := ProcessMessages(ys, codec, first.cache, store, now);
            assert Requests(d) + (first.pending + second.pending) == (Requests(d) + first.pending) + second.pending;
          }
      }
    }
  }

  /** How the broker acknowledged one produce request. */
  datatype Ack = Delivered | Rejected(isRetriable: bool)

  predicate Retriable(a: Ack) {
    a.Rejected? && a.isRetriable
  }

  /** The first produce request whose rejection is retriable, if any. */
  function FirstRetriable(acks: seq<Ack>): (r: Option<nat>)
    ensures r.Some? ==> r.value < |acks| && Retriable(acks[r.value])
                        && forall j :: 0 <= j < r.value ==> !Retriable(acks[j])
    ensures r.None? <==> forall j :: 0 <= j < |acks| ==> !Retriable(acks[j])
  {
    if |acks| == 0 then None
    else if Retriable(acks[0]) then Some(0)
    else
      match FirstRetriable(acks[1..])
      case None => None
      case Some(i) => Some(i + 1)
  }

  /** The acknowledgements of the first `n` produce requests. */
  function AcksOf(n: nat, acks: nat -> Ack): (r: seq<Ack>)
    ensures |r| == n && forall i :: 0 <= i < n ==> r[i] == acks(i)
  {
    seq(n, i requires 0 <= i => acks(i))
  }

  datatype BatchError = MessageFailed(error: MessageFailure) | ProduceFailed(index: nat)

  /** `Committed` lets the driver commit the batch's offsets; `Aborted` is
      the error `eachBatch` throws. */
  datatype BatchResult =
    | Committed(pending: seq<ProduceRequest>, cache: Cache)
    | Aborted(error: BatchError, cache: Cache)

  datatype FlushResult = Flushed | FlushFailed

  /** The outcome `eachBatch` must have, where `acks(i)` is how the `i`-th
      produce request of the batch settles. */
  function BatchOutcome(ms: seq<Message>, codec: Codec, c: Cache, store: Store, now: int,
                        acks: nat -> Ack): (r: BatchResult)
    ensures var run := ProcessMessages(ms, codec, c, store, now);
            && r.cache == run.cache
            && (r.Committed? ==> r.pending == run.pending)
            && (r.Aborted? && r.error.MessageFailed? ==> run.failure == Some(r.error.error))
            && (r.Aborted? && r.error.ProduceFailed? ==>
                  run.failure.None? && r.error.index < |run.pending| && Retriable(acks(r.error.index))
                  && forall j :: 0 <= j < r.error.index ==> !Retriable(acks(j)))
  {
    var run := ProcessMessages(ms, codec, c, store, now);
    if run.failure.Some? then Aborted(MessageFailed(run.failure.value), run.cache)
    else
      match FirstRetriable(AcksOf(|run.pending|, acks))
      case Some(i) => Aborted(ProduceFailed(i), run.cache)
      case None => Committed(run.pending, run.cache)
  }

  /** A batch commits exactly when every message was handled and no produce
      request was rejected with a retriable error; non-retriable rejections
      are skipped. */
  lemma CommitIffNoRetriableRejection(ms: seq<Message>, codec: Codec, c: Cache, store: Store, now: int,
                                      acks: nat -> Ack)
    ensures var run := ProcessMessages(ms, codec, c, store, now);
            BatchOutcome(ms, codec, c, store, now, acks).Committed? <==>
              run.failure.None? && forall i :: 0 <= i < |run.pending| ==> !Retriable(acks(i))
  {
    var run := ProcessMessages(ms, codec, c, store, now);
    var seen := AcksOf(|run.pending|, acks);
    if run.failure.None? && forall i :: 0 <= i < |run.pending| ==> !Retriable(acks(i)) {
      assert forall j :: 0 <= j < |seen| ==> !Retriable(seen[j]);
    }
  }

  /** One more message on top of an unfailed prefix of the batch. */
  lemma ProcessMessagesStep(ms: seq<Message>, i: nat, codec: Codec, c: Cache, store: Store, now: int)
    requires i < |ms|
    requires ProcessMessages(ms[..i], codec, c, store, now).failure.None?
    ensures var prev := ProcessMessages(ms[..i], codec, c, store, now);
            var step := EachMessage(ms[i], codec, prev.cache, store, now);
            ProcessMessages(ms[..i + 1], codec, c, store, now) ==
              match step.outcome
              case Failure(e) => BatchRun(prev.pending, Some(e), step.cache)
              case Success(d) => BatchRun(prev.pending + Requests(d), None, step.cache)
  {
    ProcessMessagesAppend(ms[..i], [ms[i]], codec, c, store, now);
    assert ms[..i] + [ms[i]] == ms[..i + 1];
    assert [ms[i]][1..] == [];
  }

  /** Once a prefix of the batch has failed, the rest of the batch is skipped. */
  lemma ProcessMessagesStopped(ms: seq<Message>, i: nat, codec: Codec, c: Cache, store: Store, now: int)
    requires i <= |ms|
    requires ProcessMessages(ms[..i], codec, c, store, now).failure.Some?
    ensures ProcessMessages(ms, codec, c, store, now) == ProcessMessages(ms[..i], codec, c, store, now)
  {
    ProcessMessagesAppend(ms[..i], ms[i..], codec, c, store, now);
    assert ms[..i] + ms[i..] == ms;
  }

  /** The first loop of `eachBatch`: handle the messages in order, collecting
      their produce requests, until one lets an error escape. */
  method ProcessBatch(ms: seq<Message>, codec: Codec, c: Cache, store: Store, now: int) returns (run: BatchRun)
    ensures run == ProcessMessages(ms, codec, c, store, now)
  {
    var pending: seq<ProduceRequest> := [];
    var cache := c;
    var i := 0;
    while i < |ms|
      invariant 0 <= i <= |ms|
      invariant ProcessMessages(ms[..i], codec, c, store, now) == BatchRun(pending, None, cache)
    {
      var step := EachMessage(ms[i], codec, cache, store, now);
      ProcessMessagesStep(ms, i, codec, c, store, now);
      if step.outcome.Failure? {
        ProcessMessagesStopped(ms, i + 1, codec, c, store, now);
        return BatchRun(pending, Some(step.outcome.error), step.cache);
      }
      pending := pending + Requests(step.outcome.value);
      cache := step.cache;
      i := i + 1;
    }
    assert ms[..i] == ms;
    return BatchRun(pending, None, cache);
  }

  /** The second loop of `eachBatch`: await the `n` produce requests in
      order; the first retriable rejection is rethrown, other rejections are
      logged and skipped. */
  method AwaitProduceRequests(n: nat, acks: nat -> Ack) returns (failed: Option<nat>)
    ensures failed == FirstRetriable(AcksOf(n, acks))
  {
    var j := 0;
    while j < n
      invariant 0 <= j <= n
      invariant forall k :: 0 <= k < j ==> !Retriable(acks(k))
    {
      if Retriable(acks(j)) {
        var seen := AcksOf(n, acks);
        assert Retriable(seen[j]);
        return Some(j);
      }
      j := j + 1;
    }
    return None;
  }

  /** `eachBatch`: handle the messages in order collecting their produce
      requests, flush (its failure is ignored), then await every request in
      order, rethrowing the first retriable rejection. */
  method EachBatch(ms: seq<Message>, codec: Codec, c: Cache, store: Store, now: int,
                   flush: FlushResult, acks: nat -> Ack) returns (r: BatchResult)
    ensures r == BatchOutcome(ms, codec, c, store, now, acks)
  {
    var run := ProcessBatch(ms, codec, c, store, now);
    if run.failure.Some? {
      return Aborted(MessageFailed(run.failure.value), run.cache);
    }
    var failed := AwaitProduceRequests(|run.pending|, acks);
    if failed.Some? {
      return Aborted(ProduceFailed(failed.value), run.cache);
    }
    return Committed(run.pending, run.cache);
  }

  /** The end-to-end case of an unsupported event name for an opted-in team:
      no record is produced, the drop is counted as `invalid_event_type`, and
      the batch still commits, whatever the acknowledgements. */
  lemma UnsupportedEventStillCommits(m: Message, codec: Codec, c: Cache, store: Store, now: int, acks: nat -> Ack,
                                     payload: RawEventMessage, event: PipelineEvent, team: Team)
    requires m.value.Some? && HasTimestamp(m)
    requires Decode(m.value.value, codec) == Some((payload, EventObject(event)))
    requires payload.teamId.Some? || HasToken(payload)
    requires ResolveTeam(payload, c, store, now).answer == Success(Some(team))
    requires team.sessionRecordingOptIn
    requires event.event != SnapshotEvent && event.event != PerformanceEventName
    ensures EachMessage(m, codec, c, store, now).outcome == Success(Dropped(InvalidEventType))
    ensures var r := BatchOutcome([m], codec, c, store, now, acks);
            r.Committed? && r.pending == []
  {
    ResolvedMessageDisposition(m, codec, c, store, now, payload, EventObject(event));
    assert [m][1..] == [];
    CommitIffNoRetriableRejection([m], codec, c, store, now, acks);
  }

  /** The end-to-end case: a `$snapshot` event whose token resolves, through
      the store, to an opted-in team yields exactly one record on the
      ClickHouse session-recording topic, carrying the message's key, and the
      batch commits once that request is delivered. */
  lemma SnapshotByTokenCommits(m: Message, codec: Codec, store: Store, now: int, acks: nat -> Ack,
                               payload: RawEventMessage, event: PipelineEvent, team: Team, record: Bytes)
    requires m.value.Some? && HasTimestamp(m)
    requires Decode(m.value.value, codec) == Some((payload, EventObject(event)))
    requires payload.teamId.None? && payload.token == Some("tok_abc")
    requires store.byToken("tok_abc") == Success(Some(team))
    requires team.id == 7 && team.sessionRecordingOptIn
    requires event.event == SnapshotEvent
    requires codec.sessionRecordingRecord(payload, team, event) == Some(record)
    requires acks(0) == Delivered
    ensures var r := BatchOutcome([m], codec, NewCache(), store, now, acks);
            && r.Committed?
            && r.pending == [ProduceRequest(ClickHouseSessionRecordingEvents, Some(record), ForwardedKey(m.key))]
            && r.cache.queries == 1
            && TeamRead(r.cache, 7, now) == Hit(Some(team))
  {
    var c := NewCache();
    ResolvedMessageDisposition(m, codec, c, store, now, payload, EventObject(event));
    assert [m][1..] == [];
    var run := ProcessMessages([m], codec, c, store, now);
    assert run.pending == [ProduceRequest(ClickHouseSessionRecordingEvents, Some(record), ForwardedKey(m.key))];
    CommitIffNoRetriableRejection([m], codec, c, store, now, acks);
  }

  /** As written, an opted-in team's message whose inner `data` is the JSON
      text `null` lets a `TypeError` escape `eachMessage`: the batch it starts
      is aborted, the rest of the batch is never handled and nothing is
      committed, although a message that fails while building its record is
      only logged. */
  lemma NullEventAbortsBatch(m: Message, rest: seq<Message>, codec: Codec, c: Cache, store: Store, now: int,
                             acks: nat -> Ack, payload: RawEventMessage, team: Team)
    requires m.value.Some? && HasTimestamp(m)
    requires Decode(m.value.value, codec) == Some((payload, NullEvent))
    requires payload.teamId.Some? || HasToken(payload)
    requires ResolveTeam(payload, c, store, now).answer == Success(Some(team))
    requires team.sessionRecordingOptIn
    ensures EachMessage(m, codec, c, store, now).outcome == Failure(NullEventAccess)
    ensures BatchOutcome([m] + rest, codec, c, store, now, acks)
              == Aborted(MessageFailed(NullEventAccess), ResolveTeam(payload, c, store, now).cache)
  {
    ResolvedMessageDisposition(m, codec, c, store, now, payload, NullEvent);
    assert ([m] + rest)[0] == m;
  }
}

=== FILE: team_manager.dfy ===
/**
 * The team resolution cache of the ingestion server (`TeamManager`).
 *
 * Two bounded, time-expiring maps sit in front of the relational store:
 * team id -> team-or-null and API token -> team-id-or-null. A cached
 * `null` is a negative entry, distinct from "not cached". The cache is an
 * explicit state value threaded through the resolution functions, the
 * store is a pair of abstract lookup functions, and every store query
 * increments a counter so that "no query was issued" can be stated.
 */
module TeamManager {
  import opened Wrappers

  const OneMinuteMs: int := 60_000

  /** `teamCache`: at most 10,000 entries, each living 2 minutes from insertion. */
  const TeamCacheMax: nat := 10_000
  const TeamCacheMaxAgeMs: int := 2 * OneMinuteMs

  /** `tokenToTeamIdCache`: at most 1,000,000 entries, each living 5 minutes from insertion. */
  const TokenCacheMax: nat := 1_000_000
  const TokenCacheMaxAgeMs: int := 5 * OneMinuteMs

  type TeamId = int

  /** The row of `posthog_team` selected by the store lookups. */
  datatype Team = Team(
    id: TeamId,
    uuid: string,
    organizationId: string,
    name: string,
    anonymizeIps: bool,
    apiToken: string,
    slackIncomingWebhook: Option<string>,
    sessionRecordingOptIn: bool,
    ingestedEvent: bool)

  /** A cached value with the time it was set. Reading an entry never changes
      `insertedAt`: both maps are configured with `updateAgeOnGet: false`. */
  datatype Entry<V> = Entry(value: V, insertedAt: int)

  /** The outcome of a cache read: `Miss` is the source's `undefined` (absent or
      expired), `Hit(v)` a live entry, whose `v` may itself be a negative entry. */
  datatype Cached<V> = Miss | Hit(value: V)

  /** The state of one `TeamManager`: both maps and the number of store
      queries issued so far. */
  datatype Cache = Cache(
    teams: map<TeamId, Entry<Option<Team>>>,
    tokens: map<string, Entry<Option<TeamId>>>,
    queries: nat)

  /** A store query that threw (for instance, Postgres unavailable). */
  datatype StoreError = StoreUnavailable

  type Answer = Result<Option<Team>, StoreError>

  /** The two Postgres lookups: by primary key and by API token. Each returns
      the row, `None` for "no row", or a failure. */
  datatype Store = Store(byId: TeamId -> Answer, byToken: string -> Answer)

  /** What a resolution returns together with the cache it leaves behind. */
  datatype Resolution = Resolution(answer: Answer, cache: Cache)

  /** The store's lookups return rows matching the key they were asked for. */
  ghost predicate ValidStore(store: Store) {
    && (forall id :: store.byId(id).Success? && store.byId(id).value.Some? ==>
          store.byId(id).value.value.id == id)
    && (forall token :: store.byToken(token).Success? && store.byToken(token).value.Some? ==>
          store.byToken(token).value.value.apiToken == token)
  }

  /** Every cached team sits under its own id. */
  ghost predicate WellKeyed(c: Cache) {
    forall id :: id in c.teams && c.teams[id].value.Some? ==> c.teams[id].value.value.id == id
  }

  /** An entry is live while its age does not exceed the map's lifetime. */
  predicate Live<V>(e: Entry<V>, maxAge: int, now: int) {
    now - e.insertedAt <= maxAge
  }

  function Read<K, V>(m: map<K, Entry<V>>, k: K, maxAge: int, now: int): (r: Cached<V>)
    ensures r.Hit? <==> k in m && Live(m[k], maxAge, now)
    ensures r.Hit? ==> r.value == m[k].value
  {
    if k in m && Live(m[k], maxAge, now) then Hit(m[k].value) else Miss
  }

  /** `teamCache.get(id)` at time `now`. */
  function TeamRead(c: Cache, id: TeamId, now: int): Cached<Option<Team>> {
    Read(c.teams, id, TeamCacheMaxAgeMs, now)
  }

  /** `tokenToTeamIdCache.get(token)` at time `now`. */
  function TokenRead(c: Cache, token: string, now: int): Cached<Option<TeamId>> {
    Read(c.tokens, token, TokenCacheMaxAgeMs, now)
  }

  /** A freshly constructed manager: nothing cached, nothing queried. */
  function NewCache(): (c: Cache)
    ensures forall id, now :: TeamRead(c, id, now) == Miss
    ensures forall token, now :: TokenRead(c, token, now) == Miss
    ensures c.queries == 0
  {
    Cache(map[], map[], 0)
  }

  /** `fetchTeam(teamId)`: answer from the team map when it holds any live
      value, a cached `null` included; otherwise query the store once and cache
      whatever it returned, `null` included. A store failure propagates and
      caches nothing (the `try/finally` has no `catch`). */
  function FetchTeam(c: Cache, store: Store, id: TeamId, now: int): (r: Resolution)
    ensures TeamRead(c, id, now).Hit? ==>
              r.answer == Success(TeamRead(c, id, now).value) && r.cache == c
    ensures TeamRead(c, id, now).Miss? ==>
              r.answer == store.byId(id) && r.cache.queries == c.queries + 1
    ensures r.answer.Success? ==> TeamRead(r.cache, id, now) == Hit(r.answer.value)
    ensures TeamRead(c, id, now).Miss? && r.answer.Success? ==>
              id in r.cache.teams && r.cache.teams[id] == Entry(r.answer.value, now)
    ensures r.answer.Failure? ==> r.cache.teams == c.teams
    ensures r.cache.teams - {id} == c.teams - {id}
    ensures |r.cache.teams| <= |c.teams| + 1
    ensures r.cache.tokens == c.tokens
  {
    match TeamRead(c, id, now)
    case Hit(cached) => Resolution(Success(cached), c)
    case Miss =>
      var queried := c.(queries := c.queries + 1);
      match store.byId(id)
      case Failure(e) => Resolution(Failure(e), queried)
      case Success(team) =>
        Resolution(Success(team), queried.(teams := c.teams[id := Entry(team, now)]))
  }

  /** The positive chain of `getTeamByToken`: a truthy cached team id (so not
      `0`) whose team entry is truthy (so not a cached `null`). */
  function ChainedTeam(c: Cache, token: string, now: int): (r: Option<Team>)
    ensures r.Some? <==>
              var cachedId := TokenRead(c, token, now);
              && cachedId.Hit? && cachedId.value.Some? && cachedId.value.value != 0
              && TeamRead(c, cachedId.value.value, now).Hit?
              && TeamRead(c, cachedId.value.value, now).value.Some?
    ensures r.Some? ==> TeamRead(c, TokenRead(c, token, now).value.value, now) == Hit(r)
  {
    match TokenRead(c, token, now)
    case Hit(Some(id)) =>
      if id != 0 then
        match TeamRead(c, id, now)
        case Hit(Some(team)) => Some(team)
        case _ => None
      else None
    case _ => None
  }

  /** `getTeamByToken(token)`: a cached negative token answers `null` at once;
      a positive chain answers from the cache; anything else queries the store
      by token, caching `null` for an unknown token or both `token -> team.id`
      and `team.id -> team` for a known one. */
  function GetTeamByToken(c: Cache, store: Store, token: string, now: int): (r: Resolution)
    ensures TokenRead(c, token, now) == Hit(None) ==> r == Resolution(Success(None), c)
    ensures ChainedTeam(c, token, now).Some? ==>
              r == Resolution(Success(ChainedTeam(c, token, now)), c)
    ensures TokenRead(c, token, now) != Hit(None) && ChainedTeam(c, token, now).None? ==>
              r.answer == store.byToken(token) && r.cache.queries == c.queries + 1
    ensures r.cache.queries == c.queries + 1 && r.answer == Success(None) ==>
              TokenRead(r.cache, token, now) == Hit(None) && r.cache.teams == c.teams
    ensures r.cache.queries == c.queries + 1 && r.answer.Success? && r.answer.value.Some? ==>
              var team := r.answer.value.value;
              TokenRead(r.cache, token, now) == Hit(Some(team.id))
              && TeamRead(r.cache, team.id, now) == Hit(Some(team))
    ensures r.answer.Failure? ==> r.cache.teams == c.teams && r.cache.tokens == c.tokens
    ensures r.answer.Success? && r.answer.value.Some? ==>
              r.cache.teams - {r.answer.value.value.id} == c.teams - {r.answer.value.value.id}
    ensures r.cache.queries == c.queries + 1 && r.answer == Success(None) ==>
              token in r.cache.tokens && r.cache.tokens[token] == Entry(None, now)
    ensures r.cache.queries == c.queries + 1 && r.answer.Success? && r.answer.value.Some? ==>
              var team := r.answer.value.value;
              && token in r.cache.tokens && r.cache.tokens[token] == Entry(Some(team.id), now)
              && team.id in r.cache.teams && r.cache.teams[team.id] == Entry(Some(team), now)
    ensures r.cache.tokens - {token} == c.tokens - {token}
    ensures |r.cache.teams| <= |c.teams| + 1 && |r.cache.tokens| <= |c.tokens| + 1
  {
    if TokenRead(c, token, now) == Hit(None) then
      Resolution(Success(None), c)
    else
      match ChainedTeam(c, token, now)
      case Some(team) => Resolution(Success(Some(team)), c)
      case None =>
        var queried := c.(queries := c.queries + 1);
        match store.byToken(token)
        case Failure(e) => Resolution(Failure(e), queried)
        case Success(None) =>
          Resolution(Success(None), queried.(tokens := c.tokens[token := Entry(None, now)]))
        case Success(Some(team)) =>
          Resolution(Success(Some(team)),
                     queried.(tokens := c.tokens[token := Entry(Some(team.id), now)],
                              teams := c.teams[team.id := Entry(Some(team), now)]))
  }

  // ---------------------------------------------------------------------------
  // Expiry and eviction

  ghost predicate SubMap<K, V>(small: map<K, V>, big: map<K, V>) {
    forall k :: k in small ==> k in big && small[k] == big[k]
  }

  /** `c'` is what expiry or capacity eviction may leave of `c`: entries may
      disappear, but none is added or changed, and no query is issued. */
  ghost predicate Forgets(c: Cache, c': Cache) {
    SubMap(c'.teams, c.teams) && SubMap(c'.tokens, c.tokens) && c'.queries == c.queries
  }

  /** Both maps within the capacities they are constructed with. */
  predicate WithinCapacity(c: Cache) {
    |c.teams| <= TeamCacheMax && |c.tokens| <= TokenCacheMax
  }

  /** Drops every entry that has outlived its map's lifetime at `now`. */
  function Expire(c: Cache, now: int): (r: Cache)
    ensures Forgets(c, r)
    ensures forall id :: id in r.teams ==> Live(r.teams[id], TeamCacheMaxAgeMs, now)
    ensures forall token :: token in r.tokens ==> Live(r.tokens[token], TokenCacheMaxAgeMs, now)
    ensures forall id :: TeamRead(r, id, now) == TeamRead(c, id, now)
    ensures forall token :: TokenRead(r, token, now) == TokenRead(c, token, now)
  {
    Cache(map id | id in c.teams && Live(c.teams[id], TeamCacheMaxAgeMs, now) :: c.teams[id],
          map token | token in c.tokens && Live(c.tokens[token], TokenCacheMaxAgeMs, now) :: c.tokens[token],
          c.queries)
  }

  /** Forgetting never turns one cached answer into another: after it,
      `fetchTeam` either returns what it returned before without a query, or
      asks the store. */
  lemma ForgettingOnlyCausesMisses(c: Cache, c': Cache, store: Store, id: TeamId, now: int)
    requires Forgets(c, c')
    ensures var before := FetchTeam(c, store, id, now);
            var after := FetchTeam(c', store, id, now);
            (after.answer == before.answer && after.cache.queries == c.queries)
            || (after.answer == store.byId(id) && after.cache.queries == c.queries + 1)
  {
  }

  /** A map at most one entry over a positive capacity gets back within it by
      removing one entry other than `keep`. */
  lemma EvictOne<K, V>(m: map<K, V>, keep: K, cap: nat) returns (m': map<K, V>)
    requires 1 <= cap && |m| <= cap + 1
    ensures SubMap(m', m) && |m'| <= cap && |m| <= |m'| + 1
    ensures keep in m ==> keep in m' && m'[keep] == m[keep]
  {
    if |m| <= cap {
      return m;
    }
    var others := m.Keys - {keep};
    if keep in m {
      assert m.Keys == others + {keep};
    } else {
      assert others == m.Keys;
    }
    var k :| k in others;
    m' := m - {k};
    assert m'.Keys == m.Keys - {k};
  }

  /** LRU trimming after `fetchTeam`: from a cache within capacity, the call
      adds at most one team entry, so evicting at most one other entry brings
      the cache back within capacity while keeping the entry just read. */
  lemma EvictionKeepsFetchedTeam(c: Cache, store: Store, id: TeamId, now: int)
    requires WithinCapacity(c)
    ensures var r := FetchTeam(c, store, id, now);
            exists c' :: Forgets(r.cache, c') && WithinCapacity(c')
                         && |r.cache.teams| <= |c'.teams| + 1 && c'.tokens == r.cache.tokens
                         && TeamRead(c', id, now) == TeamRead(r.cache, id, now)
  {
    var r := FetchTeam(c, store, id, now);
    var teams' := EvictOne(r.cache.teams, id, TeamCacheMax);
    var c' := r.cache.(teams := teams');
    assert SubMap(c'.tokens, r.cache.tokens);
    assert Forgets(r.cache, c');
  }

  /** LRU trimming after `getTeamByToken`: from a cache within capacity, the
      call adds at most one entry to each map, so evicting at most one other
      entry per map restores both capacities while keeping the token's entry
      and the entry of the team it resolved to. */
  lemma EvictionKeepsResolvedToken(c: Cache, store: Store, token: string, now: int)
    requires WithinCapacity(c)
    ensures var r := GetTeamByToken(c, store, token, now);
            exists c' :: Forgets(r.cache, c') && WithinCapacity(c')
                         && |r.cache.teams| <= |c'.teams| + 1 && |r.cache.tokens| <= |c'.tokens| + 1
                         && TokenRead(c', token, now) == TokenRead(r.cache, token, now)
                         && (r.answer.Success? && r.answer.value.Some? ==>
                               var id := r.answer.value.value.id;
                               TeamRead(c', id, now) == TeamRead(r.cache, id, now))
  {
    var r := GetTeamByToken(c, store, token, now);
    var id := if r.answer.Success? && r.answer.value.Some? then r.answer.value.value.id else 0;
    var teams' := EvictOne(r.cache.teams, id, TeamCacheMax);
    var tokens' := EvictOne(r.cache.tokens, token, TokenCacheMax);
    var c' := r.cache.(teams := teams', tokens := tokens');
    assert Forgets(r.cache, c');
  }

  // ---------------------------------------------------------------------------
  // Properties of resolution

  /** The team map stays well keyed through `fetchTeam`, `getTeamByToken` and
      forgetting, as long as the store answers the id it was asked for. */
  lemma ResolutionKeepsTeamsWellKeyed(c: Cache, store: Store, id: TeamId, token: string, now: int, c': Cache)
    requires ValidStore(store) && WellKeyed(c)
    ensures WellKeyed(FetchTeam(c, store, id, now).cache)
    ensures WellKeyed(GetTeamByToken(c, store, token, now).cache)
    ensures Forgets(c, c') ==> WellKeyed(c')
  {
    var f := FetchTeam(c, store, id, now).cache;
    forall k | k in f.teams && f.teams[k].value.Some?
      ensures f.teams[k].value.value.id == k
    {
      if k != id {
        assert k in f.teams - {id};
      }
    }
    var g := GetTeamByToken(c, store, token, now).cache;
    forall k | k in g.teams && g.teams[k].value.Some?
      ensures g.teams[k].value.value.id == k
    {
    }
  }

  /** After `getTeamByToken` resolved a team through the store, `fetchTeam`
      of that team's id issues no query until the team entry expires. With a
      well-keyed cache the same holds right after a chained cache hit. */
  lemma TokenResolutionWarmsTeamCache(c: Cache, store: Store, store': Store, token: string, now: int, later: int)
    requires WellKeyed(c)
    requires now <= later
    ensures var r := GetTeamByToken(c, store, token, now);
            r.answer.Success? && r.answer.value.Some? ==>
              var team := r.answer.value.value;
              && FetchTeam(r.cache, store', team.id, now) == Resolution(Success(Some(team)), r.cache)
              && (r.cache.queries == c.queries + 1 && later <= now + TeamCacheMaxAgeMs ==>
                    FetchTeam(r.cache, store', team.id, later) == Resolution(Success(Some(team)), r.cache))
  {
    var r := GetTeamByToken(c, store, token, now);
    if r.answer.Success? && r.answer.value.Some? && r.cache.queries == c.queries {
      var team := r.answer.value.value;
      var id := TokenRead(c, token, now).value.value;
      assert TeamRead(c, id, now) == Hit(Some(team));
    }
  }

  /** Two consecutive resolutions of a token, the first of which found it
      invalid, issue at most one store query when the second comes within the
      negative entry's lifetime. */
  lemma InvalidTokenQueriedAtMostOnce(c: Cache, store: Store, store': Store, token: string, now: int, later: int)
    requires GetTeamByToken(c, store, token, now).answer == Success(None)
    requires now <= later <= now + TokenCacheMaxAgeMs
    ensures var first := GetTeamByToken(c, store, token, now);
            var second := GetTeamByToken(first.cache, store', token, later);
            second.cache.queries <= c.queries + 1
  {
    var first := GetTeamByToken(c, store, token, now);
    if first.cache.queries == c.queries + 1 {
      assert TokenRead(first.cache, token, later) == Hit(None);
    }
  }

  /** A cached token id of `0` is falsy, and a cached `null` team does not
      complete the chain: in both cases the store is queried. */
  lemma FalsyChainQueriesStore(c: Cache, store: Store, token: string, id: TeamId, now: int)
    requires TokenRead(c, token, now) == Hit(Some(id))
    requires id == 0 || TeamRead(c, id, now) == Hit(None) || TeamRead(c, id, now) == Miss
    ensures GetTeamByToken(c, store, token, now).cache.queries == c.queries + 1
    ensures GetTeamByToken(c, store, token, now).answer == store.byToken(token)
  {
  }

  /** The cache after fetching `id` at each of `times` in turn. */
  function FetchRepeatedly(c: Cache, store: Store, id: TeamId, times: seq<int>): Cache
    decreases |times|
  {
    if |times| == 0 then c
    else FetchRepeatedly(FetchTeam(c, store, id, times[0]).cache, store, id, times[1..])
  }

  /** Expiry is measured from insertion, not from access: an entry read any
      number of times within its lifetime is unchanged by those reads, and the
      first `fetchTeam` after its lifetime queries the store again. */
  lemma {:induction false} TeamEntryExpiresFromInsertion(c: Cache, store: Store, store': Store, id: TeamId, times: seq<int>, later: int)
    requires id in c.teams
    requires forall i :: 0 <= i < |times| ==> times[i] <= c.teams[id].insertedAt + TeamCacheMaxAgeMs
    requires later > c.teams[id].insertedAt + TeamCacheMaxAgeMs
    ensures FetchRepeatedly(c, store, id, times) == c
    ensures FetchTeam(FetchRepeatedly(c, store, id, times), store', id, later).cache.queries == c.queries + 1
    decreases |times|
  {
    if |times| > 0 {
      assert TeamRead(c, id, times[0]).Hit?;
      assert FetchTeam(c, store, id, times[0]).cache == c;
      TeamEntryExpiresFromInsertion(c, store, store', id, times[1..], later);
    }
  }

  /** A token the store resolved to a team with a truthy id keeps being
      accepted from the cache, with no query, until the team entry expires two
      minutes later, even if the store has since changed (a revoked token);
      after that the store is asked again. */
  lemma ResolvedTokenTrustedForTeamLifetime(c: Cache, store: Store, store': Store, token: string,
                                            now: int, later: int)
    requires GetTeamByToken(c, store, token, now).cache.queries == c.queries + 1
    requires GetTeamByToken(c, store, token, now).answer.Success?
    requires GetTeamByToken(c, store, token, now).answer.value.Some?
    requires GetTeamByToken(c, store, token, now).answer.value.value.id != 0
    requires now <= later
    ensures var r := GetTeamByToken(c, store, token, now);
            var second := GetTeamByToken(r.cache, store', token, later);
            && (later <= now + TeamCacheMaxAgeMs ==> second == Resolution(r.answer, r.cache))
            && (later > now + TeamCacheMaxAgeMs ==>
                  second.answer == store'.byToken(token) && second.cache.queries == r.cache.queries + 1)
  {
    var r := GetTeamByToken(c, store, token, now);
    var team := r.answer.value.value;
    if later <= now + TeamCacheMaxAgeMs {
      assert TokenRead(r.cache, token, later) == Hit(Some(team.id));
      assert TeamRead(r.cache, team.id, later) == Hit(Some(team));
    } else {
      assert TeamRead(r.cache, team.id, later) == Miss;
    }
  }

  /** A token the store did not know is answered `null` from the cache for at
      most five minutes; a resolution after that asks the store again. */
  lemma InvalidTokenRetriedAfterLifetime(c: Cache, store: Store, store': Store, token: string,
                                         now: int, later: int)
    requires GetTeamByToken(c, store, token, now).cache.queries == c.queries + 1
    requires GetTeamByToken(c, store, token, now).answer == Success(None)
    requires later > now + TokenCacheMaxAgeMs
    ensures var r := GetTeamByToken(c, store, token, now);
            var second := GetTeamByToken(r.cache, store', token, later);
            second.answer == store'.byToken(token) && second.cache.queries == r.cache.queries + 1
  {
    var r := GetTeamByToken(c, store, token, now);
    assert TokenRead(r.cache, token, later) == Miss;
  }
}

=== FILE: wrappers.dfy ===
/** Optional values and results with an error, shared by the other modules. */
module Wrappers {

  /** `None` stands for the source's `null` / `undefined`. */
  datatype Option<+T> = None | Some(value: T)

  /** `Failure` stands for an exception the source lets propagate. */
  datatype Result<+T, +E> = Success(value: T) | Failure(error: E)
}
